=== FILE: README.md ===
# Mx.Blazor.DApp wallet session core, in Dafny

This project models the three small state machines at the heart of the
Mx.Blazor.DApp client:

- the **wallet session orchestrator** `WalletProviderContainer`: it owns one
  wallet provider (Web, WalletConnect, WalletConnectV2, Extension or
  Hardware), a pending auth token, the session and local browser stores and
  the notifications it raises; it validates, connects, disconnects, signs
  and resumes the web-wallet redirect flow after a page reload;
- the **hardware-wallet address pager** of the login dialog: states List,
  Error, Verify and Loading, a page number, a fixed page size of 10 and a
  selected global index (`-1` for none);
- the **transaction status sweep** of the automated-transactions panel: a
  walk over `{hash, status}` records that settles the pending ones.

Every operation is a pure function from one immutable state to the next
(the sweep is a method whose loop follows the source's `for` loop). What
code outside the core answers is a parameter. A call that yields a value is
a `Call<T>` that returns that value or throws: the wallet provider's `Login`
and `SignTransaction(s)`, the backend token exchange, the URL reads, JSON
decoding with the network broadcast, and the ledger page fetch. A call that
yields nothing is a flag saying whether it returned: the provider's `Init`
(`initReturns`), `Logout` (`logoutReturns`) and `TransactionIsCanceled`
(`hookReturns`), and the navigation that strips the URL (`navigateReturns`).
The sweep's network answer for each hash is a `PollOutcome`.
An exception that escapes a source method is modelled by a `Step` whose
`raised` flag is set. Its `after` field holds the state at the moment of the
throw. The trace of a container records, in order, the connected and
disconnected notifications, the access-token alert, the verification request
sent to the backend, the provider's Init and Login calls, the cancellation
hook, the records added to the transactions ledger and the navigation that
strips the redirect parameters. Whether that navigation returns is a flag
of the redirect answer.

Files:

- `results.dfy`: `Option` and `Call`.
- `storage.dfy`: session keys and typed values, and the typed reads with the
  source's default-on-missing behaviour. It also holds `RemoveAllWcItems`.
- `wallet_container.dfy`: the orchestrator.
- `wallet_container_props.dfy`: properties that relate several calls.
- `ledger_pager.dfy`: the address pager.
- `automated_tx.dfy`: the status sweep.

The model follows the code in the places where it departs from the flow one
would expect:

- A web-wallet signing redirect that comes back `"canceled"` leaves
  `WEB_WALLET_STATE` and `TX_TITLE` in place: the `break` skips the
  `finally`. Resuming again calls the cancellation hook a second time
  (`CanceledResumeRepeats`).
- Neither signing call guards the provider's `SignTransaction(s)` or the
  cancellation hook: a failing provider sign call or cancellation hook
  escapes, with only the web wallet's title stash done before it.
- Navigating away from the redirect URL is not guarded either. In a login
  resume it comes after the validation, which has already taken effect. In
  a signing resume it comes first, so when it throws nothing else happens.
- `Logout` does not swallow a failing provider logout. Nothing is cleared
  and the exception escapes.
- `ConnectToHardwareWallet` has no try/catch. `HardwareWalletConfirm`
  clears its auth token only when the connect returns normally.
- `IsConnected` is also false when no provider is instantiated, even with a
  stored account token. A validation that succeeds while no provider exists
  therefore does not block the next one: validating the same token again
  fires connected a second time (`ValidateWithoutProviderConnectsAgain`).
- A failure of the device preparation itself (an exception, not a `false`
  answer) leaves the pager in Loading, not Error.
- Disconnecting after a connect restores the stores only when they held no
  connection keys and no WalletConnect items before. A disconnect removes
  those keys whoever wrote them.
- The ledger record of a batch holds whatever hashes the network returned.
  Nothing in the core compares that count with the number of requests.

## Model

| member | source | states |
|---|---|---|
| `Storage.RemoveAllWcItems` | Mx.Blazor.DApp/Client/Services/Containers/WalletProviderContainer.cs:95 | every WalletConnect item leaves local storage and every other local item keeps its value |
| `Storage.ReadAccount` | Mx.Blazor.DApp/Client/Services/Containers/WalletProviderContainer.cs:214 | reading the account token yields it exactly when one is stored, and `null` for a missing key |
| `WalletContainer.IsConnected` | Mx.Blazor.DApp/Client/Services/Containers/WalletProviderContainer.cs:208-218 | connected iff a provider is instantiated and the stored account token exists with a non-empty address; a missing token reads as not connected |
| `WalletContainer.MyAddress` | Mx.Blazor.DApp/Client/Services/Containers/WalletProviderContainer.cs:229-232 | yields the stored address, and throws exactly when no account token is stored |
| `WalletContainer.ValidateWalletConnection` | Mx.Blazor.DApp/Client/Services/Containers/WalletProviderContainer.cs:61-87 | already connected or no valid token: nothing changes at all; otherwise the pending auth token is sent and consumed; on success both tokens are stored and connected fires once; on failure storage is untouched and only the alert is raised |
| `WalletContainer.WalletDisconnected` | Mx.Blazor.DApp/Client/Services/Containers/WalletProviderContainer.cs:88-98 | provider cleared; exactly the four connection keys leave session storage and every other key is unchanged; all WalletConnect items leave local storage; disconnected fires once; afterwards not connected |
| `WalletContainer.Initialize` | Mx.Blazor.DApp/Client/Services/Containers/WalletProviderContainer.cs:100-123 | a provider exists iff the stored wallet type is one of the five kinds, and it is that kind; any other value leaves no provider and clears the WalletConnect items |
| `WalletContainer.InitializeAsync` | Mx.Blazor.DApp/Client/Services/Containers/WalletProviderContainer.cs:125-148 | no provider or unlisted type: no-op; Extension hands the stored address to Init and throws when none is stored; Web resumes the redirect flow after Init; a failing Init escapes |
| `WalletContainer.ConnectAndAwaitCallback` | Mx.Blazor.DApp/Client/Services/Containers/WalletProviderContainer.cs:163-197 | the new provider and the fresh auth token replace the old ones; storage unchanged; Login receives the fresh token whenever Init returned |
| `WalletContainer.ConnectToExtensionWallet` | Mx.Blazor.DApp/Client/Services/Containers/WalletProviderContainer.cs:150-161 | the provider is the extension and every failure is swallowed; when Init and Login return a valid token for a disconnected container, the token is sent to the backend with the fresh auth token, which is then consumed; a working backend stores both tokens and touches no other key, connected fires once; a failing backend leaves storage untouched and raises the alert; an already connected container or an invalid token stores nothing and asks the backend nothing, and the fresh auth token stays pending |
| `WalletContainer.ConnectToHardwareWallet` | Mx.Blazor.DApp/Client/Services/Containers/WalletProviderContainer.cs:199-206 | the given auth token goes to Login; the call raises exactly when Login or decoding throws, leaving the token pending and storage untouched; otherwise the token is validated with that auth token: a working backend stores both tokens and touches no other key, a failing one leaves storage untouched and raises the alert; an already connected container or an invalid token stores nothing and asks the backend nothing, and the given auth token stays pending |
| `WalletContainer.Logout` | Mx.Blazor.DApp/Client/Services/Containers/WalletProviderContainer.cs:220-227 | no provider: no-op; a failing provider logout escapes with nothing cleared; a returning logout is exactly a full disconnect |
| `WalletContainer.SignTransaction` | Mx.Blazor.DApp/Client/Services/Containers/WalletProviderContainer.cs:234-262 | no provider: no-op; at most one trace entry per call; a failing provider sign escapes with nothing recorded; web wallet: only the title is stashed, and the call raises exactly when the sign call throws; `"canceled"`: only the cancellation hook, whose failure escapes; otherwise nothing escapes and there is one ledger record with the single returned hash, or nothing when decoding or broadcast fails |
| `WalletContainer.SignTransactions` | Mx.Blazor.DApp/Client/Services/Containers/WalletProviderContainer.cs:264-292 | as for one transaction, including which failures escape, with one ledger record holding the whole hash list the network returned |
| `WalletContainer.WebWalletCheckingState` | Mx.Blazor.DApp/Client/Services/Containers/WalletProviderContainer.cs:294-330 | Idle: no-op; LoggingIn: state reset first, stashed auth token sent and consumed, a valid token connects exactly as a validation does and otherwise only the state and AUTH_TOKEN keys change, AUTH_TOKEN removed, URL stripped; raises exactly when reading the URL or navigating throws; WaitingForTx: a failing URL read or navigation raises with nothing changed; not canceled: TX_TITLE removed and state reset even when decoding or broadcast fails; canceled: hook called, storage untouched |
| `WalletContainerProps.ValidateTwiceConnectsOnce` | Mx.Blazor.DApp/Client/Services/Containers/WalletProviderContainer.cs:61-81 | after a successful validation the container is connected, validating again is a no-op, and connected has fired exactly once |
| `WalletContainerProps.ValidateWithoutProviderConnectsAgain` | Mx.Blazor.DApp/Client/Services/Containers/WalletProviderContainer.cs:61-81 | with no provider, two successful validations of the same valid token both go ahead: connected fires twice and the container still does not count as connected |
| `WalletContainerProps.FailedExchangeStaysDisconnected` | Mx.Blazor.DApp/Client/Services/Containers/WalletProviderContainer.cs:73-86 | a rejected exchange leaves the container disconnected and adds no connected notification |
| `WalletContainerProps.ValidateThenMyAddress` | Mx.Blazor.DApp/Client/Services/Containers/WalletProviderContainer.cs:77-81 | after a successful validation the reported address is the validated token's |
| `WalletContainerProps.DisconnectReopensValidation` | Mx.Blazor.DApp/Client/Services/Containers/WalletProviderContainer.cs:88-98 | after a disconnect a valid token is validated again |
| `WalletContainerProps.ExtensionConnectThenDisconnectRestores` | Mx.Blazor.DApp/Client/Services/Containers/WalletProviderContainer.cs:150-161 | from stores without connection keys or WalletConnect items, an extension connect followed by a disconnect gives back both stores exactly |
| `WalletContainerProps.HardwareConnectThenDisconnectRestores` | Mx.Blazor.DApp/Client/Services/Containers/WalletProviderContainer.cs:199-206 | the same for the hardware connect, whether or not its Login throws |
| `WalletContainerProps.CallbackConnectThenDisconnectRestores` | Mx.Blazor.DApp/Client/Services/Containers/WalletProviderContainer.cs:163-197 | the same for the WalletConnect, WalletConnectV2 and Web connects, over the container's own writes |
| `WalletContainerProps.LastConnectWins` | Mx.Blazor.DApp/Client/Services/Containers/WalletProviderContainer.cs:163-197 | of two connects, the second decides the provider and the pending auth token |
| `WalletContainerProps.ResumeLoginConnectsOnce` | Mx.Blazor.DApp/Client/Services/Containers/WalletProviderContainer.cs:300-307 | a login resume with a valid token and a working backend fires connected exactly once, raises only when the final navigation throws, and a second resume is a no-op |
| `WalletContainerProps.ResumeTransactionsConsumed` | Mx.Blazor.DApp/Client/Services/Containers/WalletProviderContainer.cs:317-327 | a signing resume that was not canceled and whose navigation returned does not raise, and a second resume is a no-op |
| `WalletContainerProps.CanceledResumeRepeats` | Mx.Blazor.DApp/Client/Services/Containers/WalletProviderContainer.cs:311-315 | a canceled signing resume leaves storage unchanged, so resuming twice calls the cancellation hook twice |
| `WalletContainerProps.WebSigningRoundTrip` | Mx.Blazor.DApp/Client/Services/Containers/WalletProviderContainer.cs:264-328 | a web-wallet batch signed and then resumed after the redirect records the stashed title with the returned hashes, without raising, and leaves no title and an Idle redirect state behind |
| `WalletContainerProps.SignRecordsAtMostOnce` | Mx.Blazor.DApp/Client/Services/Containers/WalletProviderContainer.cs:249-292 | each signing call, for one transaction or for a batch, adds at most one ledger record to the trace |
| `WalletContainerProps.ConnectionOpsStayWellTyped` | Mx.Blazor.DApp/Client/Services/Containers/WalletProviderContainer.cs:77-94 | validate, disconnect, initialise and logout never store a value of the wrong shape under a key the container owns |
| `WalletContainerProps.ConnectsStayWellTyped` | Mx.Blazor.DApp/Client/Services/Containers/WalletProviderContainer.cs:150-206 | the same for the extension and hardware connects |
| `WalletContainerProps.SigningStaysWellTyped` | Mx.Blazor.DApp/Client/Services/Containers/WalletProviderContainer.cs:238-268 | the same for both signing calls, which stash the title as text |
| `WalletContainerProps.ResumeStaysWellTyped` | Mx.Blazor.DApp/Client/Services/Containers/WalletProviderContainer.cs:301-326 | the same for the redirect resume |
| `WalletContainerProps.InitializeAsyncStaysWellTyped` | Mx.Blazor.DApp/Client/Services/Containers/WalletProviderContainer.cs:125-148 | the same for provider initialisation |
| `WalletContainerProps.ExtensionReloadReattaches` | Mx.Blazor.DApp/Client/Services/Containers/WalletProviderContainer.cs:141-142 | a stored extension session is rebuilt as connected on reload and Init receives the stored address |
| `WalletContainerProps.ExtensionConnectEndToEnd` | Mx.Blazor.DApp/Client/Services/Containers/WalletProviderContainer.cs:150-161 | from empty stores, an extension connect answered with address `erd1abc` and access token `tok123` stores both and is connected |
| `LedgerPager.ReadLedgerAddresses` | Mx.Blazor.DApp/Client/Shared/Components/Login/Login.razor.cs:78-85 | requests the given page; a completed fetch always ends in List with the fetched addresses; the pager's own page number and selection are untouched |
| `LedgerPager.HardwareWalletLogin` | Mx.Blazor.DApp/Client/Shared/Components/Login/Login.razor.cs:61-76 | resets to page 0 with no selection and no addresses; a `false` preparation ends in Error with no page fetched; otherwise page 0 of size 10 is fetched |
| `LedgerPager.Prev` | Mx.Blazor.DApp/Client/Shared/Components/Login/Login.razor.cs:87-95 | acts only on a positive page: clears the selection, decrements the page and fetches it; a completed fetch ends in List with its addresses, a throwing one leaves Loading and the old addresses; the page never becomes negative |
| `LedgerPager.Next` | Mx.Blazor.DApp/Client/Shared/Components/Login/Login.razor.cs:97-105 | acts only once addresses are loaded: clears the selection, increments the page and fetches it; a completed fetch ends in List with its addresses, a throwing one leaves Loading and the old addresses |
| `LedgerPager.SetLedgerAddressIndex` | Mx.Blazor.DApp/Client/Shared/Components/Login/Login.razor.cs:107-111 | only the selection changes; a row of the shown page becomes a global index whose quotient by 10 is the page and whose remainder is the row |
| `LedgerPager.HardwareWalletConfirm` | Mx.Blazor.DApp/Client/Shared/Components/Login/Login.razor.cs:113-121 | no selection: no-op; otherwise Verify, the hardware connect runs with the fresh auth token, which is cleared only when the connect returns |
| `LedgerPager.InitialIsCoherent` | Mx.Blazor.DApp/Client/Shared/Components/Login/Login.razor.cs:22-27 | the dialog opens on page 0 with no selection and no addresses, which is coherent |
| `LedgerPager.ConfirmKeepsCoherent` | Mx.Blazor.DApp/Client/Shared/Components/Login/Login.razor.cs:113-121 | confirming changes only the dialog state and the pending auth token: page, selection, addresses and requests are kept, so the pager stays coherent |
| `LedgerPager.RunKeepsCoherent` | Mx.Blazor.DApp/Client/Shared/Components/Login/Login.razor.cs:61-111 | any run of logins, page moves and row selections keeps the page non-negative and any selection on the shown page |
| `LedgerPager.SelectThenNextClears` | Mx.Blazor.DApp/Client/Shared/Components/Login/Login.razor.cs:97-111 | selecting and then moving to the next page leaves no selection |
| `AutomatedTx.Sweep` | Mx.Blazor.DApp/Client/Shared/Components/Transactions/AutomatedTx.razor.cs:28-65 | length, order and hashes kept; non-pending entries untouched; pending entries take the outcome's status; an entry stays pending only if the network says so; Update fires for exactly the pending entries; every hash is reported executed in order |
| `AutomatedTx.UpdatesArePendingEntries` | Mx.Blazor.DApp/Client/Shared/Components/Transactions/AutomatedTx.razor.cs:59-63 | the Update firings name each pending entry exactly once, in increasing order, and no other entry |

## Left out

- The static `[JSInvokable]` connect and disconnect entry points and their event wiring (WalletProviderContainer.cs:42-55) are concurrency plumbing. The calls they forward to, `ValidateWalletConnection` and `WalletDisconnected`, are modelled.
- The wallet providers are foreign JavaScript calls. They are modelled as `Call` outcomes. Provider code also writes `WALLET_TYPE`, `AUTH_TOKEN` and the `LoggingIn`/`WaitingForTx` redirect states. Those writes are taken as arbitrary prior session contents.
- The `WalletType` and `WebWalletState` declarations are not part of this model. A missing `WALLET_TYPE` is read as a value naming no provider. A missing `WEB_WALLET_STATE` is read as `None` (here `Idle`).
- `AccountToken.IsValid` is not part of this model. A token carries the answer as its `valid` field.
- A value of the wrong JSON shape under a key the container owns is read as absent. The source's typed read would throw instead, except for AUTH_TOKEN and TX_TITLE: those are read with `GetItemAsString` (WalletProviderContainer.cs:303 and :320), which would return the stored text, while the model reads a non-text value there as null. The well-typedness lemmas show that the container itself never writes such a value.
- Failures of storage writes, of the `alert` call and of notification subscribers are not modelled. Neither are failures inside the transactions ledger. Decoding a signed payload and broadcasting it are one `Call`. Reading the account token or the transactions from the URL is a `Call`, and whether the navigation that strips the URL returns is a flag.
- `ConnectionController.cs` and the HTTP transport are not modelled. The backend is a `Call` returning an access token or failing.
- `GenerateAuthToken.Random` is a nonce parameter.
- Login.razor.cs: `ExtensionWalletLogin` and `WebWalletLogin` are one-line forwards to the connects modelled above. `XPortalWalletLogin` calls a container method that does not exist in the container. `XPortalLogin` only navigates. `OnInitialized` only reads device flags. `StateHasChanged` and the Razor markup are rendering.
- LedgerPager.SetLedgerAddressIndex: does not model the 32-bit wrap-around of `index + pageNumber * 10`, which needs a page number beyond 200 million. Its contract states the page and row round trip only for rows 0 to 9 of a non-negative page, the only indices the dialog offers.
- AutomatedTx: `Task.Factory.StartNew`, the cancellation token, `StateHasChanged` and failures of the `Update` callback are scheduling and rendering. They are not modelled. The callback's argument is recorded as the index of the entry just processed, not as a snapshot of the whole model. `Dismiss` and `CopyToClipboard` are UI.

=== FILE: automated_tx.dfy ===
/** The status sweep of the automated-transactions panel.

    The panel walks its list of submitted transactions in order. Each entry
    still marked "pending" is awaited on the network; the outcome of that
    wait becomes its new status and the `Update` callback fires. Entries
    with any other status are skipped. When the walk is over, every hash of
    the list is reported as executed.
 */
module AutomatedTx {

  datatype Tx = Tx(hash: string, status: string)

  /** How awaiting one transaction ends: it completes with the status the
      network reports, or throws one of the SDK's transaction exceptions, or
      some other exception. */
  datatype PollOutcome =
    | Executed(status: string)
    | StatusNotReached
    | SmartContractError
    | FailedTransaction
    | InvalidTransaction
    | OtherException

  const Pending: string := "pending"

  predicate IsPending(t: Tx)
  {
    t.status == Pending
  }

  /** The status an outcome is written as. */
  function StatusOf(o: PollOutcome): string
  {
    match o
    case Executed(s) => s
    case StatusNotReached => "fail"
    case SmartContractError => "fail"
    case FailedTransaction => "fail"
    case InvalidTransaction => "invalid"
    case OtherException => "exception"
  }

  /** The indices of the pending entries among the first `n`, in order. */
  function PendingBefore(txs: seq<Tx>, n: nat): seq<nat>
    requires n <= |txs|
  {
    if n == 0 then []
    else PendingBefore(txs, n - 1) + (if IsPending(txs[n - 1]) then [n - 1] else [])
  }

  /** What the sweep leaves behind. `updates` holds, for each firing of the
      `Update` callback, the index of the entry just processed; `executed`
      is what `TransactionsExecuted` receives. */
  datatype SweepReport = SweepReport(txs: seq<Tx>, updates: seq<nat>, executed: seq<string>)

  /** The loop of `OnInitializedAsync`. `outcomes[i]` is how awaiting entry
      `i` would end; it is consulted only for pending entries. */
  method Sweep(txs: seq<Tx>, outcomes: seq<PollOutcome>) returns (r: SweepReport)
    requires |outcomes| == |txs|
    ensures |r.txs| == |txs|
    ensures forall i :: 0 <= i < |txs| ==> r.txs[i].hash == txs[i].hash
    ensures forall i :: 0 <= i < |txs| && !IsPending(txs[i]) ==> r.txs[i] == txs[i]
    ensures forall i :: 0 <= i < |txs| && IsPending(txs[i]) ==> r.txs[i].status == StatusOf(outcomes[i])
    // no failure leaves an entry pending; only the network saying so does
    ensures forall i :: 0 <= i < |txs| ==> (IsPending(r.txs[i]) <==> IsPending(txs[i]) && outcomes[i] == Executed(Pending))
    ensures r.updates == PendingBefore(txs, |txs|)
    ensures |r.executed| == |txs| && forall i :: 0 <= i < |txs| ==> r.executed[i] == txs[i].hash
  {
    var list := txs;
    var updates: seq<nat> := [];
    var i := 0;
    while i < |list|
      invariant |list| == |txs|
      invariant 0 <= i <= |txs|
      invariant forall j :: 0 <= j < |txs| ==> list[j].hash == txs[j].hash
      invariant forall j :: i <= j < |txs| ==> list[j] == txs[j]
      invariant forall j :: 0 <= j < i && !IsPending(txs[j]) ==> list[j] == txs[j]
      invariant forall j :: 0 <= j < i && IsPending(txs[j]) ==> list[j].status == StatusOf(outcomes[j])
      invariant updates == PendingBefore(txs, i)
    {
      if list[i].status != Pending {
        i := i + 1;
        continue;
      }
      list := list[i := list[i].(status := StatusOf(outcomes[i]))];
      updates := updates + [i];
      i := i + 1;
    }
    var executed: seq<string> := [];
    var k := 0;
    while k < |list|
      invariant 0 <= k <= |list|
      invariant |executed| == k
      invariant forall j :: 0 <= j < k ==> executed[j] == list[j].hash
    {
      executed := executed + [list[k].hash];
      k := k + 1;
    }
    r := SweepReport(list, updates, executed);
  }

  /** `Update` fires exactly once for each pending entry, in list order,
      and for nothing else. */
  lemma {:induction false} UpdatesArePendingEntries(txs: seq<Tx>, n: nat)
    requires n <= |txs|
    ensures forall j :: j in PendingBefore(txs, n) <==> 0 <= j < n && IsPending(txs[j])
    ensures forall a, b :: 0 <= a < b < |PendingBefore(txs, n)| ==> PendingBefore(txs, n)[a] < PendingBefore(txs, n)[b]
  {
    if n > 0 {
      UpdatesArePendingEntries(txs, n - 1);
      var prev := PendingBefore(txs, n - 1);
      var cur := PendingBefore(txs, n);
      assert forall j :: j in prev ==> j < n - 1;
      forall a, b | 0 <= a < b < |cur| ensures cur[a] < cur[b] {
        if b < |prev| {
          assert cur[a] == prev[a] && cur[b] == prev[b];
        } else {
          assert prev[a] in prev;
          assert cur[a] == prev[a] && cur[b] == n - 1;
        }
      }
    }
  }
}

=== FILE: ledger_pager.dfy ===
/** The hardware-wallet (Ledger) address pager of the login dialog.

    The dialog lists the device's addresses a page at a time and records
    which one the user picked as a global index (`-1` for none). Its state
    machine has the states List, Error, Verify and Loading; every transition
    takes the device's answers as parameters.
 */
module LedgerPager {
  import opened Results
  import opened Storage
  import WalletContainer

  /** Addresses per page; fixed. */
  const PageSize: int := 10

  /** The selected index meaning "nothing selected". */
  const NoSelection: int := -1

  datatype LedgerState = List | Error | Verify | Loading

  /** A request for one page of addresses sent to the device. */
  datatype PageRequest = PageRequest(page: int, size: int)

  datatype Pager = Pager(
    state: LedgerState,
    pageNumber: int,
    selectedIndex: int,
    addresses: Option<seq<string>>,
    authToken: Option<string>,
    requests: seq<PageRequest>)

  /** The dialog as constructed: every field at its default. */
  const Initial: Pager := Pager(List, 0, NoSelection, None, None, [])

  /** `ReadLedgerAddresses`: fetches the page `page` of `size` addresses.
      Its parameters shadow the pager's own page number, which it leaves
      alone. A fetch that throws leaves the dialog Loading. */
  function ReadLedgerAddresses(p: Pager, page: int, size: int, fetch: Call<Option<seq<string>>>): (r: Pager)
    ensures r.requests == p.requests + [PageRequest(page, size)]
    ensures fetch.Returned? ==> r.state == List && r.addresses == fetch.value
    ensures fetch.Threw? ==> r.state == Loading && r.addresses == p.addresses
    ensures r.pageNumber == p.pageNumber && r.selectedIndex == p.selectedIndex && r.authToken == p.authToken
  {
    var loading := p.(state := Loading, requests := p.requests + [PageRequest(page, size)]);
    match fetch
    case Returned(addresses) => loading.(addresses := addresses, state := List)
    case Threw => loading
  }

  /** `HardwareWalletLogin`: starts a new attempt from page 0 with nothing
      selected and nothing loaded; `prep` is the device preparation. */
  function HardwareWalletLogin(p: Pager, prep: Call<bool>, fetch: Call<Option<seq<string>>>): (r: Pager)
    ensures r.pageNumber == 0 && r.selectedIndex == NoSelection && r.authToken == p.authToken
    ensures prep != Returned(true) ==> r.addresses.None? && r.requests == p.requests
    ensures prep == Returned(false) ==> r.state == Error
    ensures prep.Threw? ==> r.state == Loading
    ensures prep == Returned(true) ==>
      && r.requests == p.requests + [PageRequest(0, PageSize)]
      && (fetch.Returned? ==> r.state == List && r.addresses == fetch.value)
      && (fetch.Threw? ==> r.state == Loading && r.addresses.None?)
  {
    var reset := p.(pageNumber := 0, selectedIndex := NoSelection, state := Loading, addresses := None);
    match prep
    case Threw => reset
    case Returned(initialized) =>
      if !initialized then reset.(state := Error)
      else ReadLedgerAddresses(reset, reset.pageNumber, PageSize, fetch)
  }

  /** `Prev`: moves to the previous page, if there is one. */
  function Prev(p: Pager, fetch: Call<Option<seq<string>>>): (r: Pager)
    ensures p.pageNumber <= 0 ==> r == p
    ensures p.pageNumber > 0 ==>
      && r.pageNumber == p.pageNumber - 1
      && r.selectedIndex == NoSelection
      && r.requests == p.requests + [PageRequest(p.pageNumber - 1, PageSize)]
      && (fetch.Returned? ==> r.state == List && r.addresses == fetch.value)
      && (fetch.Threw? ==> r.state == Loading && r.addresses == p.addresses)
    ensures p.pageNumber >= 0 ==> r.pageNumber >= 0
    ensures r.authToken == p.authToken
  {
    if p.pageNumber > 0 then
      var moved := p.(selectedIndex := NoSelection, pageNumber := p.pageNumber - 1);
      ReadLedgerAddresses(moved, moved.pageNumber, PageSize, fetch)
    else p
  }

  /** `Next`: moves to the following page once a page has been loaded. */
  function Next(p: Pager, fetch: Call<Option<seq<string>>>): (r: Pager)
    ensures p.addresses.None? ==> r == p
    ensures p.addresses.Some? ==>
      && r.pageNumber == p.pageNumber + 1
      && r.selectedIndex == NoSelection
      && r.requests == p.requests + [PageRequest(p.pageNumber + 1, PageSize)]
      && (fetch.Returned? ==> r.state == List && r.addresses == fetch.value)
      && (fetch.Threw? ==> r.state == Loading && r.addresses == p.addresses)
    ensures r.authToken == p.authToken
  {
    if p.addresses.Some? then
      var moved := p.(selectedIndex := NoSelection, pageNumber := p.pageNumber + 1);
      ReadLedgerAddresses(moved, moved.pageNumber, PageSize, fetch)
    else p
  }

  /** `SetLedgerAddressIndex`: records the picked entry of the current page
      as a global index; nothing else changes. */
  function SetLedgerAddressIndex(p: Pager, index: int): (r: Pager)
    ensures r == p.(selectedIndex := r.selectedIndex)
    ensures 0 <= index < PageSize && p.pageNumber >= 0 ==>
      && r.selectedIndex != NoSelection
      && r.selectedIndex / PageSize == p.pageNumber
      && r.selectedIndex % PageSize == index
  {
    p.(selectedIndex := index + p.pageNumber * PageSize)
  }

  datatype ConfirmResult = ConfirmResult(pager: Pager, wallet: WalletContainer.Step)

  /** `HardwareWalletConfirm`: with an address selected, generates a fresh
      auth token, enters Verify and connects the hardware wallet with it.
      The token is dropped only when the connect returns normally; when it
      throws, the exception leaves the token in place. */
  function HardwareWalletConfirm(p: Pager, c: WalletContainer.Container, nonce: string,
                                 login: Call<Option<AccountToken>>, backend: Call<string>): (r: ConfirmResult)
    ensures p.selectedIndex == NoSelection ==> r == ConfirmResult(p, WalletContainer.Step(c, false))
    ensures p.selectedIndex != NoSelection ==>
      && r.pager == p.(state := Verify, authToken := r.pager.authToken)
      && r.wallet == WalletContainer.ConnectToHardwareWallet(c, nonce, login, backend)
      && r.wallet.after.provider == Some(Hardware)
      && r.wallet.after.trace[|c.trace|] == WalletContainer.ProviderLogin(Hardware, nonce)
      && (r.wallet.raised <==> login.Threw?)
      && (login.Threw? ==> r.pager.authToken == Some(nonce))
      && (login.Returned? ==> r.pager.authToken.None?)
  {
    if p.selectedIndex == NoSelection then ConfirmResult(p, WalletContainer.Step(c, false))
    else
      var verifying := p.(authToken := Some(nonce), state := Verify);
      var connected := WalletContainer.ConnectToHardwareWallet(c, nonce, login, backend);
      if connected.raised then ConfirmResult(verifying, connected)
      else ConfirmResult(verifying.(authToken := None), connected)
  }

  /** The user-driven transitions of the dialog other than confirming. */
  datatype Command =
    | LoginCmd(prep: Call<bool>, fetch: Call<Option<seq<string>>>)
    | PrevCmd(fetch: Call<Option<seq<string>>>)
    | NextCmd(fetch: Call<Option<seq<string>>>)
    | SelectCmd(index: int)

  function Apply(p: Pager, cmd: Command): Pager
  {
    match cmd
    case LoginCmd(prep, fetch) => HardwareWalletLogin(p, prep, fetch)
    case PrevCmd(fetch) => Prev(p, fetch)
    case NextCmd(fetch) => Next(p, fetch)
    case SelectCmd(index) => SetLedgerAddressIndex(p, index)
  }

  function Run(p: Pager, cmds: seq<Command>): Pager
    decreases |cmds|
  {
    if |cmds| == 0 then p else Run(Apply(p, cmds[0]), cmds[1..])
  }

  /** The page number is never negative, and a selection, when there is
      one, lies on the page being shown. */
  predicate Coherent(p: Pager)
  {
    && p.pageNumber >= 0
    && (p.selectedIndex == NoSelection || (p.selectedIndex >= 0 && p.selectedIndex / PageSize == p.pageNumber))
  }

  /** A selection index the dialog can offer: a row of the shown page. */
  predicate OnPage(cmd: Command)
  {
    cmd.SelectCmd? ==> 0 <= cmd.index < PageSize
  }

  lemma ApplyKeepsCoherent(p: Pager, cmd: Command)
    requires Coherent(p) && OnPage(cmd)
    ensures Coherent(Apply(p, cmd))
  {
  }

  /** The dialog opens coherent. */
  lemma InitialIsCoherent()
    ensures Coherent(Initial)
    ensures Initial.addresses.None? && Initial.requests == []
  {
  }

  /** Confirming touches only the dialog state and the pending auth token:
      the page, the selection, the listed addresses and the requests made
      stay as they were, so the pager stays coherent. */
  lemma ConfirmKeepsCoherent(p: Pager, c: WalletContainer.Container, nonce: string,
                             login: Call<Option<AccountToken>>, backend: Call<string>)
    requires Coherent(p)
    ensures var q := HardwareWalletConfirm(p, c, nonce, login, backend).pager;
      && Coherent(q)
      && q.pageNumber == p.pageNumber && q.selectedIndex == p.selectedIndex
      && q.addresses == p.addresses && q.requests == p.requests
  {
  }

  /** Any run of logins, page moves and row selections keeps the pager
      coherent. */
  lemma {:induction false} RunKeepsCoherent(p: Pager, cmds: seq<Command>)
    requires Coherent(p)
    requires forall i :: 0 <= i < |cmds| ==> OnPage(cmds[i])
    ensures Coherent(Run(p, cmds))
    decreases |cmds|
  {
    if |cmds| > 0 {
      ApplyKeepsCoherent(p, cmds[0]);
      RunKeepsCoherent(Apply(p, cmds[0]), cmds[1..]);
    }
  }

  /** A selection never survives a page change, even when the page comes
      back with the same addresses. */
  lemma SelectThenNextClears(p: Pager, index: int, fetch: Call<Option<seq<string>>>)
    requires p.addresses.Some?
    ensures Next(SetLedgerAddressIndex(p, index), fetch).selectedIndex == NoSelection
  {
  }
}

=== FILE: results.dfy ===
/** Failure-carrying datatypes shared by the model.
    - Option<T>: a value the source keeps in a nullable reference (`null` is None).
    - Call<T>: the outcome of a call into code this model cannot see (a wallet
      provider, the backend, a JSON or URL decoder, the blockchain network):
      it either returns a value or throws.
 */
module Results {

  datatype Option<+T> = None | Some(value: T)

  datatype Call<+T> = Returned(value: T) | Threw
}

=== FILE: storage.dfy ===
/** The two browser stores the wallet container works on.

    Session storage holds the connection: the access token issued by the
    backend, the wallet-issued account token, the kind of wallet in use, the
    web-wallet redirect state, the stashed auth token and the title of a
    transaction batch waiting for a web-wallet redirect. Every other session
    key belongs to the rest of the application.

    Local storage outlives the session; the only part of it the container
    touches is the set of "WC" (WalletConnect pairing) items.

    Values are kept typed. The source stores JSON text and reads it back with
    `GetItem<T>`, which yields the type's default (`null` for a class, the
    first member for an enum) when the key is missing.
 */
module Storage {
  import opened Results

  /** The wallet kinds the container can instantiate a provider for. */
  datatype WalletKind = Web | WalletConnect | WalletConnectV2 | Extension | Hardware

  /** A stored `WalletType` enum value: one of the five kinds or any other
      number the enum can hold. */
  datatype WalletTypeValue = Kind(kind: WalletKind) | OtherType(code: int)

  /** What `GetItem<WalletType>` yields for a missing key. The declaration of
      `WalletType` is not part of this model; its default is taken to be a
      value that names no provider. */
  const DefaultWalletType: WalletTypeValue := OtherType(0)

  /** The web-wallet redirect state. `Idle` is the source's
      `WebWalletState.None`, also the value read from a missing key. */
  datatype WebWalletState = Idle | LoggingIn | WaitingForTx

  /** A wallet-issued proof of address ownership. `valid` is what the
      token's own `IsValid()` check answers; that check is not part of this
      model. */
  datatype AccountToken = AccountToken(address: string, signature: string, valid: bool)

  datatype SessionKey =
    | AccessTokenKey      // ACCESS_TOKEN
    | AccountTokenKey     // ACCOUNT_TOKEN
    | WalletTypeKey       // WALLET_TYPE
    | WebWalletStateKey   // WEB_WALLET_STATE
    | AuthTokenKey        // AUTH_TOKEN
    | TxTitleKey          // TX_TITLE
    | OtherSessionKey(name: string)

  datatype SessionValue =
    | Text(text: string)
    | Account(token: AccountToken)
    | Wallet(walletType: WalletTypeValue)
    | WebState(state: WebWalletState)

  type Session = map<SessionKey, SessionValue>

  /** A local-storage key is either a WalletConnect pairing item or not. */
  datatype LocalKey = WcItem(name: string) | OtherLocalKey(name: string)

  type Local = map<LocalKey, string>

  /** The keys the container writes hold values of the shape it writes. */
  predicate WellTyped(s: Session) {
    && (AccessTokenKey in s ==> s[AccessTokenKey].Text?)
    && (AccountTokenKey in s ==> s[AccountTokenKey].Account?)
    && (WalletTypeKey in s ==> s[WalletTypeKey].Wallet?)
    && (WebWalletStateKey in s ==> s[WebWalletStateKey].WebState?)
    && (AuthTokenKey in s ==> s[AuthTokenKey].Text?)
    && (TxTitleKey in s ==> s[TxTitleKey].Text?)
  }

  /** `s'` agrees with `s` on every key outside `keys`. */
  ghost predicate SameExcept(s: Session, s': Session, keys: set<SessionKey>) {
    forall k :: k !in keys ==> (k in s <==> k in s') && (k in s ==> s[k] == s'[k])
  }

  /** `GetItem<WalletType>(WALLET_TYPE)`. */
  function ReadWalletType(s: Session): (r: WalletTypeValue)
    ensures WalletTypeKey in s && s[WalletTypeKey].Wallet? ==> r == s[WalletTypeKey].walletType
    ensures WalletTypeKey !in s ==> r == DefaultWalletType
  {
    if WalletTypeKey in s && s[WalletTypeKey].Wallet? then s[WalletTypeKey].walletType
    else DefaultWalletType
  }

  /** `GetItem<WebWalletState>(WEB_WALLET_STATE)`. */
  function ReadWebState(s: Session): (r: WebWalletState)
    ensures WebWalletStateKey in s && s[WebWalletStateKey].WebState? ==> r == s[WebWalletStateKey].state
    ensures WebWalletStateKey !in s ==> r == Idle
  {
    if WebWalletStateKey in s && s[WebWalletStateKey].WebState? then s[WebWalletStateKey].state
    else Idle
  }

  /** `GetItem<AccountToken>(ACCOUNT_TOKEN)`; None is `null`. */
  function ReadAccount(s: Session): (r: Option<AccountToken>)
    ensures r.Some? <==> AccountTokenKey in s && s[AccountTokenKey].Account?
    ensures r.Some? ==> r.value == s[AccountTokenKey].token
  {
    if AccountTokenKey in s && s[AccountTokenKey].Account? then Some(s[AccountTokenKey].token)
    else None
  }

  /** `GetItemAsString(k)`; None is `null`. */
  function ReadText(s: Session, k: SessionKey): (r: Option<string>)
    ensures r.Some? <==> k in s && s[k].Text?
    ensures r.Some? ==> r.value == s[k].text
  {
    if k in s && s[k].Text? then Some(s[k].text) else None
  }

  /** `RemoveItem` of several keys at once. */
  function RemoveKeys(s: Session, keys: set<SessionKey>): (r: Session)
    ensures forall k :: k in keys ==> k !in r
    ensures SameExcept(s, r, keys)
  {
    s - keys
  }

  /** The local-storage extension `RemoveAllWcItems`: drops every
      WalletConnect item and keeps everything else. */
  function RemoveAllWcItems(l: Local): (r: Local)
    ensures forall k: LocalKey :: k in r ==> !k.WcItem?
    ensures forall k: LocalKey :: !k.WcItem? ==> (k in r <==> k in l) && (k in r ==> r[k] == l[k])
  {
    map k | k in l && !k.WcItem? :: l[k]
  }
}

=== FILE: wallet_container.dfy ===
/** The wallet session orchestrator (`WalletProviderContainer`).

    The container owns at most one wallet provider, a pending auth token
    (the anti-replay nonce of the connect attempt in progress), the two
    browser stores and the notifications it raises. Every operation is a
    pure transition from one `Container` to the next. What code outside
    the container answers is a parameter. A call that yields a value (the
    provider's Login and sign calls, the backend, the URL reads, decoding
    with the network broadcast) is a `Call` that returns it or throws; a
    call that yields nothing (the provider's Init, Logout and cancellation
    hook, and the navigation) is a flag saying whether it returned.

    An operation whose exception escapes the source method returns a `Step`
    whose `raised` flag is set and whose `after` is the state at the throw.
 */
module WalletContainer {
  import opened Results
  import opened Storage

  /** What the container makes observable, in order. */
  datatype Event =
    | Connected                                                  // OnWalletConnected
    | Disconnected                                               // OnWalletDisconnected
    | AccessTokenAlert                                           // the "could not be generated" alert
    | VerifyRequested(account: AccountToken, sentAuthToken: Option<string>)  // POST /connection/verify
    | ProviderInit(kind: WalletKind, address: Option<string>)    // provider Init(), with the address for Extension
    | ProviderLogin(kind: WalletKind, authToken: string)         // provider Login(authToken)
    | TransactionCanceled(kind: WalletKind)                      // provider TransactionIsCanceled()
    | NewTransaction(title: Option<string>, hashes: seq<string>) // a record in the transactions ledger
    | UrlStripped                                                // navigation to the URL without parameters

  datatype Container = Container(
    provider: Option<WalletKind>,
    authToken: Option<string>,
    session: Session,
    local: Local,
    trace: seq<Event>)

  datatype Step = Step(after: Container, raised: bool)

  /** What a page reload after a web-wallet redirect finds, and what the
      collaborators answer while the container resumes the flow. */
  datatype RedirectReturn = RedirectReturn(
    urlAccount: Call<Option<AccountToken>>,   // GetAccountTokenFromUrl
    backend: Call<string>,                    // the access token from /connection/verify
    urlTransactions: Call<string>,            // GetTransactionsFromUrl
    hookReturns: bool,                        // TransactionIsCanceled returns normally
    submit: Call<seq<string>>,                // decode and broadcast: the hashes
    navigateReturns: bool)                    // GetUrlWithoutParameters and NavigateTo return normally

  /** The session keys a disconnect removes. */
  const ConnectionKeys: set<SessionKey> := {AccessTokenKey, AccountTokenKey, WalletTypeKey, WebWalletStateKey}

  /** The sentinel a provider or the redirect URL returns when the user aborts signing. */
  const Canceled: string := "canceled"

  predicate ConnectedEvent(e: Event) { e.Connected? }
  predicate CancelEvent(e: Event) { e.TransactionCanceled? }
  predicate LedgerRecord(e: Event) { e.NewTransaction? }

  /** Number of events of `trace` that satisfy `p`. */
  function Count(trace: seq<Event>, p: Event -> bool): nat
  {
    if |trace| == 0 then 0
    else (if p(trace[0]) then 1 else 0) + Count(trace[1..], p)
  }

  lemma {:induction false} CountAppend(a: seq<Event>, b: seq<Event>, p: Event -> bool)
    ensures Count(a + b, p) == Count(a, p) + Count(b, p)
  {
    if |a| == 0 {
      assert a + b == b;
    } else {
      assert (a + b)[0] == a[0];
      assert (a + b)[1..] == a[1..] + b;
      CountAppend(a[1..], b, p);
    }
  }

  /** The stored account token exists and has a non-empty address. */
  predicate HasStoredAddress(s: Session)
  {
    ReadAccount(s).Some? && |ReadAccount(s).value.address| > 0
  }

  /** `IsConnected`: no provider means not connected; otherwise the stored
      account token must carry an address. A missing token makes the source
      dereference `null`, which its catch turns into `false`. */
  function IsConnected(c: Container): (connected: bool)
    ensures connected <==>
      && c.provider.Some?
      && AccountTokenKey in c.session && c.session[AccountTokenKey].Account?
      && |c.session[AccountTokenKey].token.address| > 0
  {
    if c.provider.None? then false
    else match ReadAccount(c.session)
      case None => false
      case Some(t) => |t.address| > 0
  }

  /** `MyAddress`: the stored address; a missing account token throws. */
  function MyAddress(c: Container): (r: Call<string>)
    ensures r.Returned? <==> AccountTokenKey in c.session && c.session[AccountTokenKey].Account?
    ensures r.Returned? ==> r.value == c.session[AccountTokenKey].token.address
  {
    match ReadAccount(c.session)
    case None => Threw
    case Some(t) => Returned(t.address)
  }

  /** Validation goes ahead: not yet connected and a valid token at hand. */
  predicate Proceeds(c: Container, token: Option<AccountToken>)
  {
    !IsConnected(c) && token.Some? && token.value.valid
  }

  /** `ValidateWalletConnection`: exchanges the account token and the
      pending auth token for an access token. */
  function ValidateWalletConnection(c: Container, token: Option<AccountToken>, backend: Call<string>): (r: Container)
    // already connected, or nothing valid to validate: nothing at all changes
    ensures !Proceeds(c, token) ==> r == c
    // otherwise the pending auth token is consumed whatever the backend says
    ensures Proceeds(c, token) ==> r.authToken.None? && r.provider == c.provider && r.local == c.local
    ensures Proceeds(c, token) ==> SameExcept(c.session, r.session, {AccessTokenKey, AccountTokenKey})
    ensures Proceeds(c, token) && backend.Returned? ==>
      && ReadText(r.session, AccessTokenKey) == Some(backend.value)
      && ReadAccount(r.session) == token
      && r.trace == c.trace + [VerifyRequested(token.value, c.authToken), Connected]
    ensures Proceeds(c, token) && backend.Threw? ==>
      && r.session == c.session
      && r.trace == c.trace + [VerifyRequested(token.value, c.authToken), AccessTokenAlert]
  {
    if !Proceeds(c, token) then c
    else
      var consumed := c.(authToken := None, trace := c.trace + [VerifyRequested(token.value, c.authToken)]);
      match backend
      case Returned(accessToken) =>
        consumed.(
          session := c.session[AccessTokenKey := Text(accessToken)][AccountTokenKey := Account(token.value)],
          trace := consumed.trace + [Connected])
      case Threw =>
        consumed.(trace := consumed.trace + [AccessTokenAlert])
  }

  /** `WalletDisconnected`: forgets the provider and the connection. */
  function WalletDisconnected(c: Container): (r: Container)
    ensures r.provider.None? && !IsConnected(r)
    ensures forall k :: k in ConnectionKeys ==> k !in r.session
    ensures SameExcept(c.session, r.session, ConnectionKeys)
    ensures forall k: LocalKey :: k in r.local ==> !k.WcItem?
    ensures forall k: LocalKey :: !k.WcItem? ==> (k in r.local <==> k in c.local) && (k in r.local ==> r.local[k] == c.local[k])
    ensures r.authToken == c.authToken
    ensures r.trace == c.trace + [Disconnected]
  {
    Container(None, c.authToken, RemoveKeys(c.session, ConnectionKeys), RemoveAllWcItems(c.local), c.trace + [Disconnected])
  }

  /** `Initialize`, run by the constructor: instantiates the provider named
      by the stored wallet type, or clears the WalletConnect items. */
  function Initialize(session: Session, local: Local): (r: Container)
    ensures r.provider.Some? <==> ReadWalletType(session).Kind?
    ensures r.provider.Some? ==> r.provider.value == ReadWalletType(session).kind
    ensures r.provider.Some? ==> r.local == local
    ensures r.provider.None? ==> r.local == RemoveAllWcItems(local)
    ensures r.session == session && r.authToken.None? && r.trace == []
  {
    match ReadWalletType(session)
    case Kind(k) => Container(Some(k), None, session, local, [])
    case OtherType(_) => Container(None, None, session, RemoveAllWcItems(local), [])
  }

  /** `InitializeAsync`: initialises the provider built by `Initialize`; for
      the web wallet it then resumes a pending redirect flow; for the
      extension wallet it hands over the stored address. */
  function InitializeAsync(c: Container, initReturns: bool, ret: RedirectReturn): (r: Step)
    ensures c.provider.None? || ReadWalletType(c.session).OtherType? ==> r == Step(c, false)
    ensures r.after.local == c.local
    ensures c.provider.Some? && ReadWalletType(c.session) == Kind(Extension) ==>
      match ReadAccount(c.session)
      case None => r == Step(c, true)
      case Some(t) => r == Step(c.(trace := c.trace + [ProviderInit(c.provider.value, Some(t.address))]), !initReturns)
    ensures c.provider.Some? && ReadWalletType(c.session).Kind? && ReadWalletType(c.session).kind != Extension ==>
      && |r.after.trace| > |c.trace|
      && r.after.trace[..|c.trace| + 1] == c.trace + [ProviderInit(c.provider.value, None)]
    ensures c.provider.Some? && ReadWalletType(c.session).Kind? && ReadWalletType(c.session).kind != Web && ReadWalletType(c.session).kind != Extension ==>
      r == Step(c.(trace := c.trace + [ProviderInit(c.provider.value, None)]), !initReturns)
    ensures c.provider.Some? && ReadWalletType(c.session) == Kind(Web) ==>
      var initialised := c.(trace := c.trace + [ProviderInit(c.provider.value, None)]);
      if initReturns then r == WebWalletCheckingState(initialised, ret) else r == Step(initialised, true)
  {
    if c.provider.None? then Step(c, false)
    else
      var kind := c.provider.value;
      match ReadWalletType(c.session)
      case OtherType(_) => Step(c, false)
      case Kind(Extension) =>
        (match ReadAccount(c.session)
         case None => Step(c, true)
         case Some(t) => Step(c.(trace := c.trace + [ProviderInit(kind, Some(t.address))]), !initReturns))
      case Kind(stored) =>
        var initialised := c.(trace := c.trace + [ProviderInit(kind, None)]);
        if !initReturns then Step(initialised, true)
        else if stored == Web then WebWalletCheckingState(initialised, ret)
        else Step(initialised, false)
  }

  /** Installs a new provider of `kind` with a fresh auth token; the last
      connect attempt always wins. */
  function Install(c: Container, kind: WalletKind, authToken: string): (r: Container)
    ensures r.provider == Some(kind) && r.authToken == Some(authToken)
    ensures r.session == c.session && r.local == c.local && r.trace == c.trace
  {
    c.(provider := Some(kind), authToken := Some(authToken))
  }

  /** `ConnectToMaiarWallet`, `ConnectToWalletV2` and `ConnectToWebWallet`:
      install the provider, then Init and Login, swallowing any failure. The
      account token comes back later, through the provider's connect
      notification or the web-wallet redirect. */
  function ConnectAndAwaitCallback(c: Container, kind: WalletKind, nonce: string, initReturns: bool): (r: Container)
    requires kind == WalletConnect || kind == WalletConnectV2 || kind == Web
    ensures r.provider == Some(kind) && r.authToken == Some(nonce)
    ensures r.session == c.session && r.local == c.local
    ensures initReturns ==> r.trace == c.trace + [ProviderInit(kind, None), ProviderLogin(kind, nonce)]
    ensures !initReturns ==> r.trace == c.trace + [ProviderInit(kind, None)]
  {
    var installed := Install(c, kind, nonce);
    var initialised := installed.(trace := installed.trace + [ProviderInit(kind, None)]);
    if initReturns then initialised.(trace := initialised.trace + [ProviderLogin(kind, nonce)])
    else initialised
  }

  /** `ConnectToExtensionWallet`: install, Init, Login, then validate the
      decoded account token; every failure is swallowed. `login` is the
      Login call and the decoding of its answer together. */
  function ConnectToExtensionWallet(c: Container, nonce: string, initReturns: bool,
                                    login: Call<Option<AccountToken>>, backend: Call<string>): (r: Container)
    ensures r.provider == Some(Extension) && r.local == c.local
    ensures |r.trace| > |c.trace| && r.trace[..|c.trace| + 1] == c.trace + [ProviderInit(Extension, None)]
    ensures !initReturns ==> r.session == c.session && r.authToken == Some(nonce) && |r.trace| == |c.trace| + 1
    ensures initReturns ==> |r.trace| > |c.trace| + 1 && r.trace[|c.trace| + 1] == ProviderLogin(Extension, nonce)
    ensures initReturns && login.Threw? ==>
      r.session == c.session && r.authToken == Some(nonce) && |r.trace| == |c.trace| + 2
    ensures initReturns && login.Returned? && !HasStoredAddress(c.session) && login.value.Some? && login.value.value.valid ==>
      && r.authToken.None?
      && r.trace == c.trace + [ProviderInit(Extension, None), ProviderLogin(Extension, nonce),
                               VerifyRequested(login.value.value, Some(nonce)),
                               if backend.Returned? then Connected else AccessTokenAlert]
      && (backend.Returned? ==>
            && ReadText(r.session, AccessTokenKey) == Some(backend.value) && ReadAccount(r.session) == login.value
            && SameExcept(c.session, r.session, {AccessTokenKey, AccountTokenKey}))
      && (backend.Threw? ==> r.session == c.session)
    // already connected, or no valid token decoded: validation is a no-op
    ensures initReturns && login.Returned? && (HasStoredAddress(c.session) || login.value.None? || !login.value.value.valid) ==>
      r.session == c.session && r.authToken == Some(nonce) && |r.trace| == |c.trace| + 2
  {
    var installed := Install(c, Extension, nonce);
    var initialised := installed.(trace := installed.trace + [ProviderInit(Extension, None)]);
    if !initReturns then initialised
    else
      var loggedIn := initialised.(trace := initialised.trace + [ProviderLogin(Extension, nonce)]);
      match login
      case Threw => loggedIn
      case Returned(token) => ValidateWalletConnection(loggedIn, token, backend)
  }

  /** `ConnectToHardwareWallet`: the device was initialised by the login
      dialog; Login and the decoding of its answer are not guarded, so their
      failure escapes to the caller. */
  function ConnectToHardwareWallet(c: Container, authToken: string,
                                   login: Call<Option<AccountToken>>, backend: Call<string>): (r: Step)
    ensures r.after.provider == Some(Hardware) && r.after.local == c.local
    ensures r.raised <==> login.Threw?
    ensures |r.after.trace| > |c.trace| && r.after.trace[..|c.trace| + 1] == c.trace + [ProviderLogin(Hardware, authToken)]
    ensures login.Threw? ==>
      r.after.session == c.session && r.after.authToken == Some(authToken) && |r.after.trace| == |c.trace| + 1
    ensures login.Returned? && !HasStoredAddress(c.session) && login.value.Some? && login.value.value.valid ==>
      && r.after.authToken.None?
      && r.after.trace == c.trace + [ProviderLogin(Hardware, authToken),
                                     VerifyRequested(login.value.value, Some(authToken)),
                                     if backend.Returned? then Connected else AccessTokenAlert]
      && (backend.Returned? ==>
            && ReadText(r.after.session, AccessTokenKey) == Some(backend.value) && ReadAccount(r.after.session) == login.value
            && SameExcept(c.session, r.after.session, {AccessTokenKey, AccountTokenKey}))
      && (backend.Threw? ==> r.after.session == c.session)
    ensures login.Returned? && (HasStoredAddress(c.session) || login.value.None? || !login.value.value.valid) ==>
      r.after.session == c.session && r.after.authToken == Some(authToken) && |r.after.trace| == |c.trace| + 1
  {
    var installed := Install(c, Hardware, authToken);
    var loggedIn := installed.(trace := installed.trace + [ProviderLogin(Hardware, authToken)]);
    match login
    case Threw => Step(loggedIn, true)
    case Returned(token) => Step(ValidateWalletConnection(loggedIn, token, backend), false)
  }

  /** `Logout`: the provider's Logout is not guarded, so its failure escapes
      before anything is cleared. */
  function Logout(c: Container, logoutReturns: bool): (r: Step)
    ensures c.provider.None? ==> r == Step(c, false)
    ensures c.provider.Some? && !logoutReturns ==> r == Step(c, true)
    ensures c.provider.Some? && logoutReturns ==>
      !r.raised && r.after.provider.None? && !IsConnected(r.after)
      && (forall k :: k in ConnectionKeys ==> k !in r.after.session)
      && SameExcept(c.session, r.after.session, ConnectionKeys)
      && r.after.trace == c.trace + [Disconnected]
    // a returning provider logout is followed by the full disconnect
    ensures c.provider.Some? && logoutReturns ==> r == Step(WalletDisconnected(c), false)
  {
    if c.provider.None? then Step(c, false)
    else if !logoutReturns then Step(c, true)
    else Step(WalletDisconnected(c), false)
  }

  /** The shared body of `SignTransaction` and `SignTransactions`. For the
      web wallet the title is stashed and the method returns once the
      provider has redirected; `submit` is decoding and broadcasting the
      signed payload together, whose failure is swallowed. */
  function SignFlow(c: Container, title: string, signed: Call<string>, hookReturns: bool,
                    submit: Call<seq<string>>): (r: Step)
    ensures c.provider.None? ==> r == Step(c, false)
    ensures r.after.provider == c.provider && r.after.authToken == c.authToken && r.after.local == c.local
    ensures c.provider.Some? && ReadWalletType(c.session) == Kind(Web) ==>
      && ReadText(r.after.session, TxTitleKey) == Some(title)
      && SameExcept(c.session, r.after.session, {TxTitleKey})
      && r.after.trace == c.trace
      && r.raised == signed.Threw?
    ensures ReadWalletType(c.session) != Kind(Web) ==> r.after.session == c.session
    // the provider's sign call is not guarded: its failure escapes
    ensures c.provider.Some? && signed.Threw? ==> r.raised && r.after.trace == c.trace
    ensures c.provider.Some? && ReadWalletType(c.session) != Kind(Web) && signed == Returned(Canceled) ==>
      r.after.trace == c.trace + [TransactionCanceled(c.provider.value)] && r.raised == !hookReturns
    ensures c.provider.Some? && ReadWalletType(c.session) != Kind(Web) && signed.Returned? && signed.value != Canceled ==>
      && !r.raised
      && (submit.Returned? ==> r.after.trace == c.trace + [NewTransaction(Some(title), submit.value)])
      && (submit.Threw? ==> r.after.trace == c.trace)
  {
    if c.provider.None? then Step(c, false)
    else
      var stashed :=
        if ReadWalletType(c.session) == Kind(Web) then c.(session := c.session[TxTitleKey := Text(title)]) else c;
      match signed
      case Threw => Step(stashed, true)
      case Returned(payload) =>
        if ReadWalletType(stashed.session) == Kind(Web) then Step(stashed, false)
        else if payload == Canceled then
          Step(stashed.(trace := stashed.trace + [TransactionCanceled(c.provider.value)]), !hookReturns)
        else match submit
          case Returned(hashes) => Step(stashed.(trace := stashed.trace + [NewTransaction(Some(title), hashes)]), false)
          case Threw => Step(stashed, false)
  }

  /** `SignTransaction`: one request, one hash. */
  function SignTransaction(c: Container, title: string, signed: Call<string>, hookReturns: bool,
                           submit: Call<string>): (r: Step)
    ensures c.provider.None? ==> r == Step(c, false)
    ensures r.after.provider == c.provider && r.after.authToken == c.authToken && r.after.local == c.local
    ensures |c.trace| <= |r.after.trace| <= |c.trace| + 1 && r.after.trace[..|c.trace|] == c.trace
    ensures c.provider.Some? && ReadWalletType(c.session) != Kind(Web) && signed.Returned? && signed.value != Canceled && submit.Returned? ==>
      r.after.trace == c.trace + [NewTransaction(Some(title), [submit.value])]
    ensures c.provider.Some? && ReadWalletType(c.session) != Kind(Web) && signed == Returned(Canceled) ==>
      r.after.trace == c.trace + [TransactionCanceled(c.provider.value)]
    ensures ReadWalletType(c.session) == Kind(Web) ==> r.after.trace == c.trace
    ensures c.provider.Some? && ReadWalletType(c.session) == Kind(Web) ==>
      ReadText(r.after.session, TxTitleKey) == Some(title) && SameExcept(c.session, r.after.session, {TxTitleKey})
    ensures ReadWalletType(c.session) != Kind(Web) ==> r.after.session == c.session
    // only decoding and broadcasting are guarded; the sign call and the cancellation hook are not
    ensures c.provider.Some? && signed.Threw? ==> r.raised && r.after.trace == c.trace
    ensures c.provider.Some? && ReadWalletType(c.session) == Kind(Web) ==> r.raised == signed.Threw?
    ensures c.provider.Some? && ReadWalletType(c.session) != Kind(Web) && signed == Returned(Canceled) ==>
      r.raised == !hookReturns
    ensures c.provider.Some? && ReadWalletType(c.session) != Kind(Web) && signed.Returned? && signed.value != Canceled ==>
      !r.raised && (submit.Threw? ==> r.after.trace == c.trace)
  {
    var hashes := match submit case Returned(h) => Returned([h]) case Threw => Threw;
    SignFlow(c, title, signed, hookReturns, hashes)
  }

  /** `SignTransactions`: a batch of requests, one ledger record holding
      every hash the network returned. */
  function SignTransactions(c: Container, title: string, signed: Call<string>, hookReturns: bool,
                            submit: Call<seq<string>>): (r: Step)
    ensures c.provider.None? ==> r == Step(c, false)
    ensures r.after.provider == c.provider && r.after.authToken == c.authToken && r.after.local == c.local
    ensures |c.trace| <= |r.after.trace| <= |c.trace| + 1 && r.after.trace[..|c.trace|] == c.trace
    ensures c.provider.Some? && ReadWalletType(c.session) != Kind(Web) && signed.Returned? && signed.value != Canceled && submit.Returned? ==>
      r.after.trace == c.trace + [NewTransaction(Some(title), submit.value)]
    ensures c.provider.Some? && ReadWalletType(c.session) != Kind(Web) && signed == Returned(Canceled) ==>
      r.after.trace == c.trace + [TransactionCanceled(c.provider.value)]
    ensures ReadWalletType(c.session) == Kind(Web) ==> r.after.trace == c.trace
    ensures c.provider.Some? && ReadWalletType(c.session) == Kind(Web) ==>
      ReadText(r.after.session, TxTitleKey) == Some(title) && SameExcept(c.session, r.after.session, {TxTitleKey})
    ensures ReadWalletType(c.session) != Kind(Web) ==> r.after.session == c.session
    // only decoding and broadcasting are guarded; the sign call and the cancellation hook are not
    ensures c.provider.Some? && signed.Threw? ==> r.raised && r.after.trace == c.trace
    ensures c.provider.Some? && ReadWalletType(c.session) == Kind(Web) ==> r.raised == signed.Threw?
    ensures c.provider.Some? && ReadWalletType(c.session) != Kind(Web) && signed == Returned(Canceled) ==>
      r.raised == !hookReturns
    ensures c.provider.Some? && ReadWalletType(c.session) != Kind(Web) && signed.Returned? && signed.value != Canceled ==>
      !r.raised && (submit.Threw? ==> r.after.trace == c.trace)
  {
    SignFlow(c, title, signed, hookReturns, submit)
  }

  /** `WebWalletCheckingState`: resumes the web-wallet flow after the page
      has been reloaded by the redirect back from the web wallet. */
  function WebWalletCheckingState(c: Container, ret: RedirectReturn): (r: Step)
    ensures ReadWebState(c.session) == Idle ==> r == Step(c, false)
    ensures r.after.provider == c.provider && r.after.local == c.local
    // LoggingIn: the state is reset before anything else happens
    ensures ReadWebState(c.session) == LoggingIn ==>
      && WebWalletStateKey in r.after.session && r.after.session[WebWalletStateKey] == WebState(Idle)
      && (r.raised <==> ret.urlAccount.Threw? || !ret.navigateReturns)
    ensures ReadWebState(c.session) == LoggingIn && ret.urlAccount.Threw? ==>
      && SameExcept(c.session, r.after.session, {WebWalletStateKey})
      && r.after.trace == c.trace && r.after.authToken == c.authToken
    ensures ReadWebState(c.session) == LoggingIn && ret.urlAccount.Returned? ==>
      && AuthTokenKey !in r.after.session
      && SameExcept(c.session, r.after.session, {WebWalletStateKey, AuthTokenKey, AccessTokenKey, AccountTokenKey})
    // the stashed AUTH_TOKEN is the one sent to the backend, and consumed
    ensures ReadWebState(c.session) == LoggingIn && ret.urlAccount.Returned? && Proceeds(c, ret.urlAccount.value) ==>
      && r.after.authToken.None?
      && r.after.trace == c.trace + [
           VerifyRequested(ret.urlAccount.value.value, ReadText(c.session, AuthTokenKey)),
           if ret.backend.Returned? then Connected else AccessTokenAlert] +
           (if ret.navigateReturns then [UrlStripped] else [])
      && (ret.backend.Returned? ==>
            ReadText(r.after.session, AccessTokenKey) == Some(ret.backend.value)
            && ReadAccount(r.after.session) == ret.urlAccount.value)
      && (ret.backend.Threw? ==> SameExcept(c.session, r.after.session, {WebWalletStateKey, AuthTokenKey}))
    ensures ReadWebState(c.session) == LoggingIn && ret.urlAccount.Returned? && !Proceeds(c, ret.urlAccount.value) ==>
      && r.after.authToken == ReadText(c.session, AuthTokenKey)
      && SameExcept(c.session, r.after.session, {WebWalletStateKey, AuthTokenKey})
      && r.after.trace == c.trace + (if ret.navigateReturns then [UrlStripped] else [])
    // WaitingForTx: a failure while reading or stripping the URL escapes before anything changes
    ensures ReadWebState(c.session) == WaitingForTx && (ret.urlTransactions.Threw? || !ret.navigateReturns) ==>
      r == Step(c, true)
    ensures ReadWebState(c.session) == WaitingForTx && ret.navigateReturns && ret.urlTransactions == Returned(Canceled) ==>
      && r.after.session == c.session
      && r.after.trace == c.trace + [UrlStripped] + (if c.provider.Some? then [TransactionCanceled(c.provider.value)] else [])
      && r.raised == (c.provider.None? || !ret.hookReturns)
    ensures ReadWebState(c.session) == WaitingForTx && ret.navigateReturns && ret.urlTransactions.Returned? && ret.urlTransactions.value != Canceled ==>
      && !r.raised
      && TxTitleKey !in r.after.session
      && WebWalletStateKey in r.after.session && r.after.session[WebWalletStateKey] == WebState(Idle)
      && SameExcept(c.session, r.after.session, {TxTitleKey, WebWalletStateKey})
      && r.after.trace == c.trace + [UrlStripped] +
           (if ret.submit.Returned? then [NewTransaction(ReadText(c.session, TxTitleKey), ret.submit.value)] else [])
    ensures ReadWebState(c.session) != LoggingIn ==> r.after.authToken == c.authToken
  {
    match ReadWebState(c.session)
    case Idle => Step(c, false)
    case LoggingIn =>
      var reset := c.(session := c.session[WebWalletStateKey := WebState(Idle)]);
      (match ret.urlAccount
       case Threw => Step(reset, true)
       case Returned(token) =>
         var stashed := reset.(authToken := ReadText(reset.session, AuthTokenKey));
         var validated := ValidateWalletConnection(stashed, token, ret.backend);
         var cleaned := validated.(session := RemoveKeys(validated.session, {AuthTokenKey}));
         if ret.navigateReturns then Step(cleaned.(trace := cleaned.trace + [UrlStripped]), false)
         else Step(cleaned, true))
    case WaitingForTx =>
      match ret.urlTransactions
      case Threw => Step(c, true)
      case Returned(payload) =>
        if !ret.navigateReturns then Step(c, true)
        else
          var stripped := c.(trace := c.trace + [UrlStripped]);
          if payload == Canceled then
            match c.provider
            case None => Step(stripped, true)    // the hook is called on a null provider
            case Some(kind) => Step(stripped.(trace := stripped.trace + [TransactionCanceled(kind)]), !ret.hookReturns)
          else
            var recorded := match ret.submit
              case Returned(hashes) => stripped.(trace := stripped.trace + [NewTransaction(ReadText(c.session, TxTitleKey), hashes)])
              case Threw => stripped;
            Step(recorded.(session := RemoveKeys(recorded.session, {TxTitleKey})[WebWalletStateKey := WebState(Idle)]), false)
  }
}

=== FILE: wallet_container_props.dfy ===
/** Properties of the wallet container that relate several calls. */
module WalletContainerProps {
  import opened Results
  import opened Storage
  import opened WalletContainer

  lemma CountOne(x: Event, p: Event -> bool)
    ensures Count([x], p) == if p(x) then 1 else 0
  {
    assert [x][1..] == [];
  }

  lemma {:induction false} CountAtMostLength(t: seq<Event>, p: Event -> bool)
    ensures Count(t, p) <= |t|
  {
    if |t| > 0 {
      CountAtMostLength(t[1..], p);
    }
  }

  /** A trace extended by at most one event gains at most one match. */
  lemma ExtendsByAtMostOne(a: seq<Event>, t: seq<Event>, p: Event -> bool)
    requires |a| <= |t| <= |a| + 1 && t[..|a|] == a
    ensures Count(a, p) <= Count(t, p) <= Count(a, p) + 1
  {
    var suffix := t[|a|..];
    assert t == a + suffix;
    CountAppend(a, suffix, p);
    CountAtMostLength(suffix, p);
  }

  /** Validating again once a validation has succeeded is a no-op: the
      connected notification fires exactly once in total. */
  lemma ValidateTwiceConnectsOnce(c: Container, token: Option<AccountToken>, accessToken: string,
                                                     again: Option<AccountToken>, backend: Call<string>)
    requires c.provider.Some? && Proceeds(c, token) && |token.value.address| > 0
    ensures var first := ValidateWalletConnection(c, token, Returned(accessToken));
      && IsConnected(first)
      && ValidateWalletConnection(first, again, backend) == first
      && Count(first.trace, ConnectedEvent) == Count(c.trace, ConnectedEvent) + 1
  {
    var verify := VerifyRequested(token.value, c.authToken);
    CountAppend(c.trace, [verify], ConnectedEvent);
    CountAppend(c.trace + [verify], [Connected], ConnectedEvent);
    CountOne(verify, ConnectedEvent);
    CountOne(Connected, ConnectedEvent);
    assert c.trace + [verify, Connected] == c.trace + [verify] + [Connected];
  }

  /** Without a provider the container never counts as connected, so a
      second successful validation of the same token connects again: the
      connected notification fires twice. This happens when a wallet's
      connect callback arrives after a disconnect has dropped the provider. */
  lemma ValidateWithoutProviderConnectsAgain(c: Container, token: AccountToken, a1: string, a2: string)
    requires c.provider.None? && token.valid
    ensures var first := ValidateWalletConnection(c, Some(token), Returned(a1));
      var second := ValidateWalletConnection(first, Some(token), Returned(a2));
      && !IsConnected(second)
      && Count(second.trace, ConnectedEvent) == Count(c.trace, ConnectedEvent) + 2
  {
    var first := ValidateWalletConnection(c, Some(token), Returned(a1));
    var second := ValidateWalletConnection(first, Some(token), Returned(a2));
    var v1 := VerifyRequested(token, c.authToken);
    var v2 := VerifyRequested(token, None);
    assert first.trace == c.trace + [v1] + [Connected];
    assert second.trace == first.trace + [v2] + [Connected];
    CountOne(v1, ConnectedEvent);
    CountOne(v2, ConnectedEvent);
    CountOne(Connected, ConnectedEvent);
    CountAppend(c.trace, [v1], ConnectedEvent);
    CountAppend(c.trace + [v1], [Connected], ConnectedEvent);
    CountAppend(first.trace, [v2], ConnectedEvent);
    CountAppend(first.trace + [v2], [Connected], ConnectedEvent);
  }

  /** A failed backend exchange leaves the session disconnected and never
      fires the connected notification. */
  lemma FailedExchangeStaysDisconnected(c: Container, token: Option<AccountToken>)
    requires Proceeds(c, token)
    ensures var r := ValidateWalletConnection(c, token, Threw);
      && !IsConnected(r)
      && Count(r.trace, ConnectedEvent) == Count(c.trace, ConnectedEvent)
  {
    var verify := VerifyRequested(token.value, c.authToken);
    CountAppend(c.trace, [verify], ConnectedEvent);
    CountAppend(c.trace + [verify], [AccessTokenAlert], ConnectedEvent);
    CountOne(verify, ConnectedEvent);
    CountOne(AccessTokenAlert, ConnectedEvent);
    assert c.trace + [verify, AccessTokenAlert] == c.trace + [verify] + [AccessTokenAlert];
  }

  /** After a successful validation the address reported is the validated
      token's. */
  lemma ValidateThenMyAddress(c: Container, token: Option<AccountToken>, accessToken: string)
    requires Proceeds(c, token)
    ensures MyAddress(ValidateWalletConnection(c, token, Returned(accessToken))) == Returned(token.value.address)
  {
  }

  /** After a disconnect the container is not connected whatever happened
      before, and a further validation goes ahead again. */
  lemma DisconnectReopensValidation(c: Container, token: AccountToken)
    requires token.valid
    ensures Proceeds(WalletDisconnected(c), Some(token))
  {
  }

  /** Disconnecting right after a same-process extension connect restores
      the session and local stores, provided they held no connection and
      no WalletConnect items before. */
  lemma ExtensionConnectThenDisconnectRestores(c: Container, nonce: string, initReturns: bool,
                                                                  login: Call<Option<AccountToken>>, backend: Call<string>)
    requires forall k :: k in ConnectionKeys ==> k !in c.session
    requires forall k: LocalKey :: k in c.local ==> !k.WcItem?
    ensures var r := WalletDisconnected(ConnectToExtensionWallet(c, nonce, initReturns, login, backend));
      r.session == c.session && r.local == c.local && r.provider.None?
  {
    var connected := ConnectToExtensionWallet(c, nonce, initReturns, login, backend);
    var r := WalletDisconnected(connected);
    assert SameExcept(c.session, connected.session, {AccessTokenKey, AccountTokenKey});
    forall k | k in c.session ensures k in r.session {
      assert k !in ConnectionKeys;
    }
    assert r.session == c.session;
  }

  /** The same for the hardware connect, whether or not its Login throws. */
  lemma HardwareConnectThenDisconnectRestores(c: Container, authToken: string,
                                                                 login: Call<Option<AccountToken>>, backend: Call<string>)
    requires forall k :: k in ConnectionKeys ==> k !in c.session
    requires forall k: LocalKey :: k in c.local ==> !k.WcItem?
    ensures var r := WalletDisconnected(ConnectToHardwareWallet(c, authToken, login, backend).after);
      r.session == c.session && r.local == c.local && r.provider.None?
  {
    var connected := ConnectToHardwareWallet(c, authToken, login, backend).after;
    var r := WalletDisconnected(connected);
    assert SameExcept(c.session, connected.session, {AccessTokenKey, AccountTokenKey});
    forall k | k in c.session ensures k in r.session {
      assert k !in ConnectionKeys;
    }
    assert r.session == c.session;
  }

  /** The same for the connects whose answer arrives later, over the
      container's own writes: what the provider itself stashes during the
      redirect (such as AUTH_TOKEN for the web wallet) is outside the model. */
  lemma CallbackConnectThenDisconnectRestores(c: Container, kind: WalletKind, nonce: string, initReturns: bool)
    requires kind == WalletConnect || kind == WalletConnectV2 || kind == Web
    requires forall k :: k in ConnectionKeys ==> k !in c.session
    requires forall k: LocalKey :: k in c.local ==> !k.WcItem?
    ensures var r := WalletDisconnected(ConnectAndAwaitCallback(c, kind, nonce, initReturns));
      r.session == c.session && r.local == c.local && r.provider.None?
  {
    var r := WalletDisconnected(ConnectAndAwaitCallback(c, kind, nonce, initReturns));
    forall k | k in c.session ensures k in r.session {
      assert k !in ConnectionKeys;
    }
    assert r.session == c.session;
  }

  /** Connect attempts do not queue: the last one decides the provider and
      the pending auth token. */
  lemma LastConnectWins(c: Container, first: WalletKind, second: WalletKind, n1: string, n2: string, i1: bool, i2: bool)
    requires first == WalletConnect || first == WalletConnectV2 || first == Web
    requires second == WalletConnect || second == WalletConnectV2 || second == Web
    ensures var r := ConnectAndAwaitCallback(ConnectAndAwaitCallback(c, first, n1, i1), second, n2, i2);
      r.provider == Some(second) && r.authToken == Some(n2)
  {
  }

  /** Resuming a login redirect consumes the redirect state: with a valid
      account token and a working backend it connects exactly once (even
      when the final navigation throws), and a second resume on the
      resulting state is a no-op. */
  lemma ResumeLoginConnectsOnce(c: Container, ret: RedirectReturn, later: RedirectReturn)
    requires ReadWebState(c.session) == LoggingIn
    requires ret.urlAccount.Returned? && Proceeds(c, ret.urlAccount.value) && ret.backend.Returned?
    ensures var r := WebWalletCheckingState(c, ret);
      && r.raised == !ret.navigateReturns
      && Count(r.after.trace, ConnectedEvent) == Count(c.trace, ConnectedEvent) + 1
      && WebWalletCheckingState(r.after, later) == Step(r.after, false)
  {
    var r := WebWalletCheckingState(c, ret);
    var verify := VerifyRequested(ret.urlAccount.value.value, ReadText(c.session, AuthTokenKey));
    var tail := if ret.navigateReturns then [UrlStripped] else [];
    assert r.after.trace == c.trace + [verify] + [Connected] + tail;
    CountOne(verify, ConnectedEvent);
    CountOne(Connected, ConnectedEvent);
    CountAppend(c.trace, [verify], ConnectedEvent);
    CountAppend(c.trace + [verify], [Connected], ConnectedEvent);
    CountAppend(c.trace + [verify] + [Connected], tail, ConnectedEvent);
    if ret.navigateReturns {
      CountOne(UrlStripped, ConnectedEvent);
    }
  }

  /** Resuming a signing redirect that was not canceled consumes the
      redirect state too, whether decoding and broadcast succeed or not. */
  lemma ResumeTransactionsConsumed(c: Container, ret: RedirectReturn, later: RedirectReturn)
    requires ReadWebState(c.session) == WaitingForTx && ret.navigateReturns
    requires ret.urlTransactions.Returned? && ret.urlTransactions.value != Canceled
    ensures var r := WebWalletCheckingState(c, ret);
      !r.raised && WebWalletCheckingState(r.after, later) == Step(r.after, false)
  {
  }

  /** A canceled signing redirect is NOT consumed: the redirect state and
      the stashed title survive, so resuming again calls the cancellation
      hook a second time. */
  lemma CanceledResumeRepeats(c: Container, ret: RedirectReturn)
    requires ReadWebState(c.session) == WaitingForTx && c.provider.Some?
    requires ret.urlTransactions == Returned(Canceled) && ret.hookReturns && ret.navigateReturns
    ensures var once := WebWalletCheckingState(c, ret);
      var twice := WebWalletCheckingState(once.after, ret);
      && once.after.session == c.session
      && !twice.raised
      && Count(twice.after.trace, CancelEvent) == Count(c.trace, CancelEvent) + 2
  {
    var cancel := TransactionCanceled(c.provider.value);
    var once := WebWalletCheckingState(c, ret);
    var twice := WebWalletCheckingState(once.after, ret);
    assert once.after.trace == c.trace + [UrlStripped] + [cancel];
    assert twice.after.trace == once.after.trace + [UrlStripped] + [cancel];
    CountOne(UrlStripped, CancelEvent);
    CountOne(cancel, CancelEvent);
    CountAppend(c.trace, [UrlStripped], CancelEvent);
    CountAppend(c.trace + [UrlStripped], [cancel], CancelEvent);
    CountAppend(once.after.trace, [UrlStripped], CancelEvent);
    CountAppend(once.after.trace + [UrlStripped], [cancel], CancelEvent);
  }

  /** The web-wallet signing round trip: the title stashed before the
      redirect is the one the resume records with the returned hashes, and
      the resume then removes it and resets the redirect state. The wallet's
      own write of the WaitingForTx state happens outside the container and
      is made explicit here. */
  lemma WebSigningRoundTrip(c: Container, title: string, signed: Call<string>, hookReturns: bool,
                            ret: RedirectReturn, hashes: seq<string>)
    requires c.provider.Some? && ReadWalletType(c.session) == Kind(Web)
    requires ret.urlTransactions.Returned? && ret.urlTransactions.value != Canceled
    requires ret.navigateReturns && ret.submit == Returned(hashes)
    ensures var s := SignTransactions(c, title, signed, hookReturns, Threw).after;
      var away := s.(session := s.session[WebWalletStateKey := WebState(WaitingForTx)]);
      var back := WebWalletCheckingState(away, ret);
      && !back.raised
      && back.after.trace == c.trace + [UrlStripped, NewTransaction(Some(title), hashes)]
      && TxTitleKey !in back.after.session
      && ReadWebState(back.after.session) == Idle
  {
  }

  /** Signing never records more than one ledger entry per call. */
  lemma SignRecordsAtMostOnce(c: Container, title: string, signed: Call<string>, hookReturns: bool,
                              one: Call<string>, many: Call<seq<string>>)
    ensures Count(SignTransaction(c, title, signed, hookReturns, one).after.trace, LedgerRecord)
              <= Count(c.trace, LedgerRecord) + 1
    ensures Count(SignTransactions(c, title, signed, hookReturns, many).after.trace, LedgerRecord)
              <= Count(c.trace, LedgerRecord) + 1
  {
    ExtendsByAtMostOne(c.trace, SignTransaction(c, title, signed, hookReturns, one).after.trace, LedgerRecord);
    ExtendsByAtMostOne(c.trace, SignTransactions(c, title, signed, hookReturns, many).after.trace, LedgerRecord);
  }

  /** No operation writes a value of the wrong shape under a key the
      container owns, so its typed reads never meet one they cannot decode. */
  lemma ConnectionOpsStayWellTyped(c: Container, token: Option<AccountToken>, backend: Call<string>, logoutReturns: bool)
    requires WellTyped(c.session)
    ensures WellTyped(ValidateWalletConnection(c, token, backend).session)
    ensures WellTyped(WalletDisconnected(c).session)
    ensures WellTyped(Initialize(c.session, c.local).session)
    ensures WellTyped(Logout(c, logoutReturns).after.session)
  {
  }

  lemma ConnectsStayWellTyped(c: Container, nonce: string, initReturns: bool,
                              login: Call<Option<AccountToken>>, backend: Call<string>)
    requires WellTyped(c.session)
    ensures WellTyped(ConnectToExtensionWallet(c, nonce, initReturns, login, backend).session)
    ensures WellTyped(ConnectToHardwareWallet(c, nonce, login, backend).after.session)
  {
  }

  lemma SigningStaysWellTyped(c: Container, title: string, signed: Call<string>, hookReturns: bool,
                              one: Call<string>, many: Call<seq<string>>)
    requires WellTyped(c.session)
    ensures WellTyped(SignTransaction(c, title, signed, hookReturns, one).after.session)
    ensures WellTyped(SignTransactions(c, title, signed, hookReturns, many).after.session)
  {
  }

  lemma ResumeStaysWellTyped(c: Container, ret: RedirectReturn)
    requires WellTyped(c.session)
    ensures WellTyped(WebWalletCheckingState(c, ret).after.session)
  {
    match ReadWebState(c.session)
    case Idle =>
    case LoggingIn =>
      var reset := c.(session := c.session[WebWalletStateKey := WebState(Idle)]);
      assert WellTyped(reset.session);
      if ret.urlAccount.Returned? {
        var stashed := reset.(authToken := ReadText(reset.session, AuthTokenKey));
        ConnectionOpsStayWellTyped(stashed, ret.urlAccount.value, ret.backend, true);
        var validated := ValidateWalletConnection(stashed, ret.urlAccount.value, ret.backend);
        assert WellTyped(RemoveKeys(validated.session, {AuthTokenKey}));
      }
    case WaitingForTx =>
  }

  lemma InitializeAsyncStaysWellTyped(c: Container, ret: RedirectReturn, initReturns: bool)
    requires WellTyped(c.session)
    ensures WellTyped(InitializeAsync(c, initReturns, ret).after.session)
  {
    if c.provider.Some? && ReadWalletType(c.session) == Kind(Web) && initReturns {
      ResumeStaysWellTyped(c.(trace := c.trace + [ProviderInit(c.provider.value, None)]), ret);
    }
  }

  /** A stored extension session is re-attached on reload: the provider is
      rebuilt from the stored wallet type and receives the stored address. */
  lemma ExtensionReloadReattaches(session: Session, local: Local, t: AccountToken, ret: RedirectReturn)
    requires ReadWalletType(session) == Kind(Extension) && ReadAccount(session) == Some(t) && |t.address| > 0
    ensures var c := Initialize(session, local);
      && c.provider == Some(Extension)
      && IsConnected(c)
      && InitializeAsync(c, true, ret) == Step(c.(trace := [ProviderInit(Extension, Some(t.address))]), false)
  {
  }

  /** The end-to-end extension connect: the stored session ends up with the
      backend's access token and the wallet's address. */
  lemma ExtensionConnectEndToEnd()
    ensures var c := Initialize(map[], map[]);
      var token := AccountToken("erd1abc", "proof", true);
      var r := ConnectToExtensionWallet(c, "nonce", true, Returned(Some(token)), Returned("tok123"));
      && ReadText(r.session, AccessTokenKey) == Some("tok123")
      && ReadAccount(r.session) == Some(token)
      && IsConnected(r)
      && r.authToken.None?
      && r.trace == [ProviderInit(Extension, None), ProviderLogin(Extension, "nonce"),
                     VerifyRequested(token, Some("nonce")), Connected]
  {
  }
}
